=== FILE: README.md ===
# Shared editor session protocol, modelled in Dafny

This project models the per-client collaboration protocol of the shared code
editor: the React context in `frontend/src/contexts/sharededitor.context.tsx`
that lets two matched users edit one code buffer, chat, and submit solutions
over a peer-to-peer replicated document, with no server that owns the state.

The replicated document (`Session.Doc`) is one replica as a plain value. It holds:

- the keyed states map (`States`): pending submission, active language, code buffer reference, sync marker;
- the text buffers (`Y.Text`), as a sequence of strings addressed by `BufId`;
- the append-only chat log and submission log.

The client-local cache (`Session.Client`) holds:

- the fixed configuration: user, question, role and language template table;
- the observer phase (`Unmounted`, `AwaitingInit`, `AwaitingDocLoad`, `Steady`);
- the local language, the buffer handle (`ycode`) and the current submission;
- the chat view, the fetched past submissions and the history view.

Roles follow `matchedRoom`. `Solo` means there is no matched room. `Initiator` means `init` is set, and `Partner` means it is not.

Every handler is a pure function that returns a `Step`. A `Step` holds the new document, the new client, and the effects the host must carry out. An effect is one of:

- a notice (a toast);
- dispatching a submission for evaluation;
- creating a code buffer.

Modules follow the source's structure:

- `Wrappers`: optional values and results.
- `Text`: the two positional edits on a buffer.
- `Session`: the data model.
- `Editor`: the user actions `submitCode`, `changeLang`, `replaceCode`, `clearCode` and `sendToChat`, plus `submitToServer` and its delayed resolution.
- `Observers`: `initStates`, `setCodeFromMap`, `initCodeIfNotExist`, `observeDocLoad`, `stateEventObserver`, the mount-time startup, and the chat and history observers.
- `Protocol`: the client as a reactor over any sequence of inputs, and the properties that span several steps or both replicas.
- `Findings`: three handlers as the source writes them, next to the corrected versions.

Things the model takes as parameters:

- A merged remote transaction is "the replica is now `incoming`, then the observer fires with `local = false`". The merge itself is the transport's business.
- `random.uint32()` becomes a `Uint32` nonce argument.
- `Date.now()` becomes a `now` argument.
- The language template file becomes a `Catalog` argument. It holds the key order `langList` and each entry's default text.
- The history fetch becomes a `Fetched` input that carries the fetched records.
- The change event of a client's own write on the states map is an `Echo` input of its own. In the code that event fires synchronously inside the write. `Protocol.Replay` may therefore delay or omit it, so the model admits more schedules than the code does. For example, two `Submit` inputs before the `Echo` let the second submission overwrite the first, which the code rules out. The safety lemmas over `Replay` hold for every schedule, so they also hold for the code's.
- A `Remote` input always fires the states-map observer, even when `keys` is empty. In the code a remote transaction that touches only the chat, the submission log or a text buffer fires no states-map handler. So `Remote(incoming, {}, nonce)` can, for instance, make an initiator that is awaiting initialisation create the buffer on a replica whose map did not change. This too only adds schedules, and the safety lemmas over `Replay` hold for every schedule.

Behaviour of the code worth noting:

- `submitCode` checks for a buffer handle, not for a non-empty buffer.
- Resolution always records the verdict "WA" (`WrongAnswer`) after the delay. No code path records any other verdict.
- On a simultaneous-submission race, once the stale read at line 221 is corrected (see "## Findings"), only a client that is not the initiator gets the "partner already submitted" notice. The initiator stays silent. As written, no client gets it.
- The "signed in elsewhere" warning is raised in two places. One is when the initialisation handler of an initiator finds an existing buffer. The other is when any solo client or initiator sees a remote code-key change in steady state.
- A language switch is three transactions (key write, delete, insert), each broadcast on its own, and the initiator's creation is likewise three transactions (code key, language key, template text). The other replica therefore sees the key change while its buffer still holds the old text, or is still empty. `Protocol.Handshake` and `Protocol.LanguageSwitchPropagates` deliver the transactions one at a time and state these intermediate states.

## Model

| member | source | states |
|---|---|---|
| Text.Insert | frontend/src/contexts/sharededitor.context.tsx:191 | inserting keeps the text before the position, puts the new text next, then the rest of the old text |
| Text.Delete | frontend/src/contexts/sharededitor.context.tsx:179 | deleting keeps the text before the position and continues with the text after the deleted range |
| Text.DeleteUndoesInsert | frontend/src/contexts/sharededitor.context.tsx:178-192 | deleting what was just inserted restores the buffer |
| Text.ClearThenInsert | frontend/src/contexts/sharededitor.context.tsx:189-192 | clearing a buffer and inserting at position 0 leaves exactly the inserted text |
| Session.ChooseLang | frontend/src/contexts/sharededitor.context.tsx:275 | the random draw yields a language of the table exactly when the table is non-empty |
| Session.ChooseLangReachesEveryLang | frontend/src/contexts/sharededitor.context.tsx:275 | every language of the table is drawn by some value of the random draw |
| Editor.ClearCode | frontend/src/contexts/sharededitor.context.tsx:178-180 | with a buffer, that buffer becomes empty and nothing else in the document changes; without one, nothing changes |
| Editor.ReplaceCode | frontend/src/contexts/sharededitor.context.tsx:189-192 | with a buffer, that buffer holds exactly the given text afterwards and nothing else in the document changes |
| Editor.ChangeLang | frontend/src/contexts/sharededitor.context.tsx:182-187 | a no-op when the language is already the local one; otherwise the language key (when bound) and the local language become the new one, the buffer equals its template or "", and chat, log and other buffers are untouched |
| Editor.ChangeLangIdempotent | frontend/src/contexts/sharededitor.context.tsx:183 | switching again to the language just chosen changes nothing |
| Editor.SubmitCode | frontend/src/contexts/sharededitor.context.tsx:165-176 | no change when the map is unbound, a submission is current, no language is set or there is no buffer; otherwise only the pending slot changes, to a record with verdict Unknown, the local user, the buffer's text, the current language and question id "-1" when there is no question |
| Editor.SendToChat | frontend/src/contexts/sharededitor.context.tsx:154-163 | a no-op without a chat log; otherwise exactly one record with the message and the username is appended, earlier entries are kept, and the local chat view equals the log |
| Editor.SubmitToServer | frontend/src/contexts/sharededitor.context.tsx:127-144 | always announces the submission (own or partner's); dispatches it exactly when the client is not the matched non-initiator and the submission is not its own arriving via a remote transaction |
| Editor.Resolve | frontend/src/contexts/sharededitor.context.tsx:145-151 | clears the pending slot and the current submission and appends exactly one record, the submission with verdict WA, leaving earlier log entries, buffers and chat unchanged |
| Observers.InitStates | frontend/src/contexts/sharededitor.context.tsx:271-279 | a no-op without a buffer; otherwise a language of the table (any, when the table is non-empty) becomes the language key and the local language, and its template is prepended to the buffer; nothing else changes |
| Observers.SetCodeFromMap | frontend/src/contexts/sharededitor.context.tsx:281-290 | the client adopts the buffer the code key refers to, and the language key when it is set |
| Observers.InitCodeIfNotExist | frontend/src/contexts/sharededitor.context.tsx:309-340 | local transactions are ignored; the initiator adopts an existing buffer with a signed-in-elsewhere warning, or creates exactly one new buffer seeded with the chosen template when the code key is absent, and moves to steady state, with the client otherwise unchanged apart from the buffer handle and the drawn language; the non-initiator never creates, waits while the code key is absent, and otherwise adopts |
| Observers.ObserveDocLoad | frontend/src/contexts/sharededitor.context.tsx:342-349 | corrected handler: the first event moves the client to steady state, and a remote one also makes it adopt the existing buffer if any; it never writes the document |
| Observers.SlotEffects | frontend/src/contexts/sharededitor.context.tsx:215-238 | a new pending value dispatches exactly when no submission is current and the dispatch guard allows it; the partner-already-submitted notice is raised exactly when one is current, the author differs and the client is not the initiator; a new pending value with none current is announced as "you submitted" or "your partner submitted" by its author, as `submitToServer` does at lines 133-140; no other notice is raised, and an empty slot raises nothing |
| Observers.OnStatesEvent | frontend/src/contexts/sharededitor.context.tsx:210-269 | the steady observer never writes the document; a slot change always sets the current submission; a set language key is adopted without touching any buffer; a remote code-key change adopts the foreign buffer with the role's notice; a new pending value with nothing seen is announced by its author; the only notices are that announcement, the partner-already-submitted notice and the code-replaced notice of a remote code-key change, and an event touching neither the slot nor, remotely, the code key has no effects; it creates nothing |
| Observers.StateEventObserver | frontend/src/contexts/sharededitor.context.tsx:210-236 | a new pending value is dispatched exactly when no submission is current and the dispatch guard allows it; the partner-already-submitted notice is raised exactly when one is current, the author differs and the client is not the initiator; a new pending value with none current is announced by its author; no other notice than these and the code-replaced notice of a remote code-key change is raised; keeps the phase and never writes the document |
| Observers.Observe | frontend/src/contexts/sharededitor.context.tsx:331-348 | an event only moves a client forward to steady state; only the attached matched-room handler of a client other than the non-initiator creates a buffer, at most one, and then the client is in steady state |
| Observers.Start | frontend/src/contexts/sharededitor.context.tsx:351-362 | in a matched room, attaches the initialisation handler and only writes the sync marker; alone, creates the one buffer, seeds it with the chosen language's template and sets the language key and local language to it |
| Observers.OnChatChange | frontend/src/contexts/sharededitor.context.tsx:388-390 | the local chat view equals the chat log |
| Observers.OnLogChange | frontend/src/contexts/sharededitor.context.tsx:384-386 | the history view is the past submissions followed by the live log |
| Observers.HistoryLoaded | frontend/src/contexts/sharededitor.context.tsx:366-382 | without a question nothing is fetched; otherwise the fetched records become the past submissions and the history view is them followed by the live log |
| Protocol.Handle | frontend/src/contexts/sharededitor.context.tsx:309-349 | any input keeps the configuration and only moves the phase forward to steady state; a buffer is created only by a client that can still create one, which then cannot again |
| Protocol.Replay | frontend/src/contexts/sharededitor.context.tsx:331-348 | over any sequence of inputs the configuration is kept and a client in steady state stays there, because the initialisation handler never re-attaches |
| Protocol.ReplayCreatesAtMostOnce | frontend/src/contexts/sharededitor.context.tsx:309-340 | over any sequence of inputs a client creates at most one buffer, and none unless its matched-room handler is attached and it is not the non-initiator |
| Protocol.SessionCreatesAtMostOnce | frontend/src/contexts/sharededitor.context.tsx:351-362 | from startup on, any client creates at most one buffer, and the matched non-initiator none |
| Protocol.PartnerWaitsForCode | frontend/src/contexts/sharededitor.context.tsx:333-336 | while no merged document carries a code reference, the non-initiator stays waiting, creates nothing, and its replica has no code reference |
| Protocol.Handshake | frontend/src/contexts/sharededitor.context.tsx:309-362 | with each transaction delivered on its own: the non-initiator waits on the initiator's marker; the initiator creates the one buffer on the non-initiator's marker; the non-initiator adopts it on the code-key event in steady state with no language, adopts the language on the language-key event, and ends with the initiator's document, whose buffer holds the template |
| Protocol.AtMostOneDispatcher | frontend/src/contexts/sharededitor.context.tsx:141-143 | of two replicas of one session, at most one dispatches a submission whose transaction is local to at most one of them |
| Protocol.TwoInitiatorTabsBothDispatch | frontend/src/contexts/sharededitor.context.tsx:141-143 | two tabs with the same configuration of an initiator account, each receiving the partner's submission as a remote transaction, both dispatch it |
| Protocol.LanguageSwitchPropagates | frontend/src/contexts/sharededitor.context.tsx:182-243 | with the key write, deletion and insertion delivered one at a time: on the language-key event the other replica adopts the language while the buffer still holds the old text, writing nothing; after the deletion and insertion its replica is the writer's, whose buffer holds the template |
| Protocol.SubmitThenEcho | frontend/src/contexts/sharededitor.context.tsx:165-223 | an accepted submission becomes the submitter's current submission, is dispatched unless the submitter is the matched non-initiator, and makes a second submission a no-op |
| Protocol.ResolveThenEcho | frontend/src/contexts/sharededitor.context.tsx:145-151 | after resolution the pending slot and current submission are empty, nothing more is dispatched, the history ends with the resolved record, and submitting is allowed again |
| Findings.StateEventObserverAsWritten | frontend/src/contexts/sharededitor.context.tsx:220-236 | as written, the partner-already-submitted notice is never raised, and every dispatchable pending value is dispatched whatever is current |
| Findings.StaleSubmissionDispatchesTwice | frontend/src/contexts/sharededitor.context.tsx:221-223 | an initiator with its own current submission dispatches the partner's overwriting submission as written, and nothing when corrected |
| Findings.StaleSubmissionHidesRace | frontend/src/contexts/sharededitor.context.tsx:224-236 | a non-initiator with its own current submission gets no race notice as written, and does get one when corrected |
| Findings.OnLogChangeAsWritten | frontend/src/contexts/sharededitor.context.tsx:384-386 | as written, the history refresh throws exactly when the past submissions were never fetched |
| Findings.ObserveDocLoadAsWritten | frontend/src/contexts/sharededitor.context.tsx:342-349 | as written, local transactions leave the client waiting; only a remote one moves it to steady state |
| Findings.SoloTabNeverDispatches | frontend/src/contexts/sharededitor.context.tsx:342-362 | as written, a solo tab with no peer stays in the document-load phase: its submission's echo neither makes it current nor dispatches it, and a second submission overwrites the first |
| Findings.SoloTabDispatchesOwnSubmission | frontend/src/contexts/sharededitor.context.tsx:342-362 | with the corrected handler, a solo tab reaches steady state on the echo of its startup writes, dispatches its own submission on its echo, and rejects a second one |
| Findings.NoQuestionHistoryNeverShown | frontend/src/contexts/sharededitor.context.tsx:364-386 | in a session about no question, a resolved submission leaves the history view empty as written, and shows the log when corrected |

## Left out

- Merging and convergence of concurrent edits, and the undo manager. These belong to the Yjs library, whose code is not part of this model. A remote transaction is modelled as an arbitrary incoming replica.
- The WebRTC provider, signalling and awareness, including the random user colour (lines 48-60 and 297-307). These are transport and presence, with no effect on the protocol.
- The room token derived from the user and question (lines 292-296). It only selects the room.
- Closing the previous toast through `lastSubmissionToastId`. Toasts are returned as `Notify` effects, and the bookkeeping of their handles is left out.
- The timing of `setTimeout`. The 3-second resolution is a `Resolved` input. The 1-second simulated fetch and its hard-coded record are a `Fetched` input with any records.
- The cleanup when the component unmounts (lines 392-399). A resolution that fires after teardown is not modelled.
- The React state plumbing. The closure values that `stateEventObserver` and `setCodeFromMap` capture at mount are read from the client state instead. Reading the stale value at line 221 changes behaviour, so it is kept as a finding. The stale `lang` at lines 241 and 287 does not: setting a language equal to the current one changes nothing.
- The `SYNCEVENT` value (line 355) is modelled as the pair of user id and nonce, not their string concatenation. Its only role is to trigger a change event.
- The question-service controllers, the bank page, the match-making button, the app entry point and the user routes. These are CRUD or UI code outside the protocol.

## Findings

| source | as written | input that shows it | evidently intended | confidence | as-written member | corrected member |
|---|---|---|---|---|---|---|
| frontend/src/contexts/sharededitor.context.tsx:221 | the observer is created once at mount and reads the `currSubmission` captured then, which is always null | an initiator whose own submission is current receives a remote event where the partner's submission overwrote the slot | skip the dispatch when a submission is current, and warn a non-initiator that the partner already submitted | high, not executed | Findings.StateEventObserverAsWritten, Findings.StaleSubmissionDispatchesTwice, Findings.StaleSubmissionHidesRace | Observers.StateEventObserver |
| frontend/src/contexts/sharededitor.context.tsx:385 | `pastSubmissions` is declared without a value and assigned only by the fetch, which runs only when there is a question, so `concat` on it throws | a solo session with no question open in two tabs of the same account; one tab's submission resolves and the submission log gets one entry, which the other tab's log observer also sees. Equally, any change of the submission log within the first second of a session that has a question | start from an empty list, so the history view is the past submissions followed by the live log | medium, not executed | Findings.OnLogChangeAsWritten, Findings.NoQuestionHistoryNeverShown | Observers.OnLogChange |
| frontend/src/contexts/sharededitor.context.tsx:343 | the solo handler ignores local transactions and is the only path to the steady observer, so a tab with no peer never attaches it | a solo session in one tab; the startup writes and a submission produce only local transactions | hand over to the steady observer on the first event, so the tab dispatches its own submissions | medium, not executed | Findings.ObserveDocLoadAsWritten, Findings.SoloTabNeverDispatches | Observers.ObserveDocLoad, Findings.SoloTabDispatchesOwnSubmission |

=== FILE: editor.dfy ===
/**
 The actions the editor exposes to its user (`submitCode`, `changeLang`,
 `replaceCode`, `clearCode`, `sendToChat`) and the evaluation dispatch with
 its delayed resolution (`submitToServer`).
 */
module Editor {
  import opened Wrappers
  import opened Session
  import Text

  /** `clearCode`: empties the client's buffer; nothing happens without one. */
  function ClearCode(d: Doc, c: Client): (d': Doc)
    ensures c.code.None? ==> d' == d
    ensures c.code.Some? ==> OnlyBufferDiffers(d, d', c.code.value)
    ensures c.code.Some? && HasBuffer(d, c.code.value) ==> TextOf(d', c.code.value) == ""
  {
    match c.code
    case None => d
    case Some(id) =>
      var t := TextOf(d, id);
      WithText(d, id, Text.Delete(t, 0, |t|))
  }

  /** `replaceCode`: clears the buffer, then inserts `s` at position 0. */
  function ReplaceCode(d: Doc, c: Client, s: string): (d': Doc)
    ensures c.code.None? ==> d' == d
    ensures c.code.Some? ==> OnlyBufferDiffers(d, d', c.code.value)
    ensures c.code.Some? && HasBuffer(d, c.code.value) ==> TextOf(d', c.code.value) == s
  {
    var cleared := ClearCode(d, c);
    match c.code
    case None => cleared
    case Some(id) =>
      var t := TextOf(cleared, id);
      var r := WithText(cleared, id, Text.Insert(t, 0, s));
      assert HasBuffer(d, id) ==> Text.Insert(t, 0, s) == s by {
        if HasBuffer(d, id) {
          Text.ClearThenInsert(TextOf(d, id), s);
        }
      }
      r
  }

  /**
   `changeLang`: a no-op when `l` is already the local language; otherwise
   writes the language key (when the states map is bound), replaces the
   buffer with `l`'s template and adopts `l` locally.
   */
  function ChangeLang(d: Doc, c: Client, l: Lang): (r: Step)
    ensures r.effects == []
    ensures c.lang == Some(l) ==> r.doc == d && r.client == c
    ensures c.lang != Some(l) ==> r.client == c.(lang := Some(l))
    ensures c.lang != Some(l) && Bound(c) ==> r.doc.states == d.states.(lang := Some(l))
    ensures !Bound(c) || c.lang == Some(l) ==> r.doc.states == d.states
    ensures r.doc.chat == d.chat && r.doc.log == d.log && |r.doc.texts| == |d.texts|
    ensures c.lang != Some(l) && c.code.Some? && HasBuffer(d, c.code.value) ==>
              TextOf(r.doc, c.code.value) == Template(c.config.catalog, Some(l))
    ensures forall j :: 0 <= j < |d.texts| && Some(j) != c.code ==> r.doc.texts[j] == d.texts[j]
  {
    if c.lang == Some(l) then Step(d, c, [])
    else
      var written := if Bound(c) then d.(states := d.states.(lang := Some(l))) else d;
      Step(ReplaceCode(written, c, Template(c.config.catalog, Some(l))), c.(lang := Some(l)), [])
  }

  /** The guard of `submitCode`: a bound states map, no current submission, a language and a buffer. */
  predicate CanSubmit(c: Client) {
    Bound(c) && c.current.None? && Truthy(c.lang) && c.code.Some?
  }

  /**
   `submitCode`: when the guard holds, stages a new submission of the buffer's
   text in the pending slot; otherwise nothing changes.
   */
  function SubmitCode(d: Doc, c: Client, now: int): (r: Step)
    ensures r.client == c && r.effects == []
    ensures !CanSubmit(c) ==> r.doc == d
    ensures CanSubmit(c) ==>
              && r.doc == d.(states := d.states.(pending := r.doc.states.pending))
              && r.doc.states.pending.Some?
              && var s := r.doc.states.pending.value;
                 && s.result == Unknown
                 && s.user == c.config.user.id
                 && s.code == TextOf(d, c.code.value)
                 && Some(s.lang) == c.lang
                 && s.questionId == (if c.config.question.Some? then c.config.question.value else "-1")
                 && s.time == now
  {
    if !CanSubmit(c) then Step(d, c, [])
    else
      var s := Submission(now, c.config.user.id, c.config.question.GetOr("-1"),
                          TextOf(d, c.code.value), c.lang.value, Unknown);
      Step(d.(states := d.states.(pending := Some(s))), c, [])
  }

  /** `sendToChat`: appends one record to the chat log and refreshes the local chat view. */
  function SendToChat(d: Doc, c: Client, msg: string): (r: Step)
    ensures r.effects == []
    ensures !Bound(c) ==> r.doc == d && r.client == c
    ensures Bound(c) ==>
              && |r.doc.chat| == |d.chat| + 1
              && r.doc.chat[..|d.chat|] == d.chat
              && r.doc.chat[|d.chat|] == ChatRecord(c.config.user.username, msg)
              && r.client == c.(chat := r.doc.chat)
              && r.doc == d.(chat := r.doc.chat)
  {
    if !Bound(c) then Step(d, c, [])
    else
      var chat := d.chat + [ChatRecord(c.config.user.username, msg)];
      Step(d.(chat := chat), c.(chat := chat), [])
  }

  /** Whether `submitToServer` goes on to dispatch: never for a matched non-initiator,
      never for one's own submission that arrived through a remote transaction. */
  predicate Dispatches(c: Client, s: Submission, local: bool) {
    c.config.role != Partner && (s.user != c.config.user.id || local)
  }

  /** The toast `submitToServer` shows for every submission it is handed. */
  function Announcement(c: Client, s: Submission): Notice {
    if s.user == c.config.user.id then YouSubmitted else PartnerSubmitted
  }

  /**
   `submitToServer`: announces the submission, then dispatches it for
   evaluation unless this client is not the one to do so.
   */
  function SubmitToServer(c: Client, s: Submission, local: bool): (r: seq<Effect>)
    ensures 1 <= |r| <= 2
    ensures r[0] == Notify(if s.user == c.config.user.id then YouSubmitted else PartnerSubmitted)
    ensures Dispatch(s) in r <==> Dispatches(c, s, local)
    ensures forall i :: 0 < i < |r| ==> r[i] == Dispatch(s)
    ensures NoCreation(r)
  {
    var announce := Notify(Announcement(c, s));
    if c.config.role == Partner then [announce]
    else if s.user == c.config.user.id && !local then [announce]
    else [announce, Dispatch(s)]
  }

  /**
   The delayed resolution of a dispatched submission: clears the local current
   submission and the pending slot, and appends the submission with verdict
   `WrongAnswer` to the submission log.
   */
  function Resolve(d: Doc, c: Client, s: Submission): (r: Step)
    ensures r.effects == []
    ensures r.client == c.(current := None)
    ensures r.doc.states == d.states.(pending := None)
    ensures r.doc.texts == d.texts && r.doc.chat == d.chat
    ensures |r.doc.log| == |d.log| + 1 && r.doc.log[..|d.log|] == d.log
    ensures r.doc.log[|d.log|] == s.(result := WrongAnswer)
  {
    Step(d.(states := d.states.(pending := None), log := d.log + [s.(result := WrongAnswer)]),
         c.(current := None), [])
  }

  /** Switching to the language already chosen changes nothing. */
  lemma ChangeLangIdempotent(d: Doc, c: Client, l: Lang)
    ensures var r := ChangeLang(d, c, l);
            ChangeLang(r.doc, r.client, l) == Step(r.doc, r.client, [])
  {
  }
}

=== FILE: findings.dfy ===
/**
 Three handlers as the source writes them, beside the corrected definitions the
 rest of the model uses, with inputs that show the difference.
 */
module Findings {
  import opened Wrappers
  import opened Session
  import opened Editor
  import opened Observers

  /**
   `stateEventObserver` as written: the observer is created once by the mount
   effect, so the `currSubmission` it reads is the value captured then, which
   is always null.
   */
  function StateEventObserverAsWritten(d: Doc, c: Client, e: MapEvent): (r: Step)
    ensures r.doc == d && NoCreation(r.effects)
    ensures Notify(PartnerAlreadySubmitted) !in r.effects
    ensures PendingKey in e.keys && d.states.pending.Some? && Dispatches(c, d.states.pending.value, e.local) ==>
              Dispatched(r.effects) == {d.states.pending.value}
  {
    OnStatesEvent(d, c, e, None)
  }

  /**
   An initiator whose own submission is current, on learning that the
   partner's submission overwrote the slot, dispatches that one as well as
   written; the corrected observer dispatches nothing and stays silent.
   */
  lemma StaleSubmissionDispatchesTwice(me: User, partner: User, cat: Catalog, mine: Submission, theirs: Submission)
    requires partner.id != me.id && mine.user == me.id && theirs.user == partner.id
    ensures var c := Client(Config(me, None, Initiator, cat), Steady, None, None, Some(mine), [], None, []);
            var d := EmptyDoc.(states := EmptyDoc.states.(pending := Some(theirs)));
            var e := MapEvent({PendingKey}, false);
            && Dispatched(StateEventObserverAsWritten(d, c, e).effects) == {theirs}
            && Dispatched(StateEventObserver(d, c, e).effects) == {}
  {
  }

  /**
   A matched non-initiator whose own submission is current, on learning that
   the partner submitted first, gets no warning as written; the corrected
   observer warns that the partner already submitted.
   */
  lemma StaleSubmissionHidesRace(me: User, partner: User, cat: Catalog, mine: Submission, theirs: Submission)
    requires partner.id != me.id && mine.user == me.id && theirs.user == partner.id
    ensures var c := Client(Config(me, None, Partner, cat), Steady, None, None, Some(mine), [], None, []);
            var d := EmptyDoc.(states := EmptyDoc.states.(pending := Some(theirs)));
            var e := MapEvent({PendingKey}, false);
            && Notify(PartnerAlreadySubmitted) !in StateEventObserverAsWritten(d, c, e).effects
            && Notify(PartnerAlreadySubmitted) in StateEventObserver(d, c, e).effects
  {
  }

  /** The error the submission-log observer throws. */
  datatype Thrown = TypeError

  /**
   The submission-log observer as written: the past submissions start out
   undefined, and concatenating onto them throws until the fetch completes.
   */
  function OnLogChangeAsWritten(d: Doc, c: Client): (r: Result<Client, Thrown>)
    ensures c.past.None? <==> r.Err?
    ensures r.Ok? ==> r.value.history == c.past.value + d.log
  {
    if c.past.None? then Err(TypeError) else Ok(c.(history := c.past.value + d.log))
  }

  /**
   A session about no question never fetches history, so as written every
   change of the submission log throws and the history view stays empty,
   whereas the corrected observer shows the log.
   */
  lemma NoQuestionHistoryNeverShown(config: Config, syncNonce: Uint32, langNonce: Uint32,
                                    fetched: seq<Submission>, s: Submission)
    requires config.question.None?
    ensures var c0 := Start(config, syncNonce, langNonce);
            var r := Resolve(c0.doc, HistoryLoaded(c0.doc, c0.client, fetched), s);
            && |r.doc.log| == 1
            && OnLogChangeAsWritten(r.doc, r.client).Err?
            && r.client.history == []
            && OnLogChange(r.doc, r.client).history == r.doc.log
  {
  }

  /**
   `observeDocLoad` as written: local transactions are ignored, so the handler
   waits for a remote one before it hands over to steady state.
   */
  function ObserveDocLoadAsWritten(d: Doc, c: Client, e: MapEvent): (r: Step)
    ensures r.doc == d && r.effects == []
    ensures e.local ==> r.client == c
    ensures !e.local ==> r.client.phase == Steady
  {
    if e.local then Step(d, c, [])
    else if d.states.code.Some? then Step(d, SetCodeFromMap(d, c).(phase := Steady), [])
    else Step(d, c.(phase := Steady), [])
  }

  /**
   A solo tab with no peer sees only its own transactions, so as written it
   never leaves the document-load phase: its submission's echo neither makes
   it current nor dispatches it, and a second submission overwrites the first.
   */
  lemma SoloTabNeverDispatches(config: Config, syncNonce: Uint32, langNonce: Uint32, now: int, later: int)
    requires config.role == Solo
    ensures var s0 := Start(config, syncNonce, langNonce);
            var e0 := ObserveDocLoadAsWritten(s0.doc, s0.client, MapEvent({CodeKey, LangKey}, true));
            var s1 := SubmitCode(e0.doc, e0.client, now);
            var e1 := ObserveDocLoadAsWritten(s1.doc, s1.client, MapEvent({PendingKey}, true));
            var s2 := SubmitCode(e1.doc, e1.client, later);
            && e1.client.phase == AwaitingDocLoad
            && e0.effects == [] && e1.effects == []
            && e1.client.current.None?
            && (CanSubmit(s0.client) ==>
                  s1.doc.states.pending.Some? && s2.doc.states.pending.Some? && s2.doc.states.pending.value.time == later)
  {
  }

  /**
   With the corrected handler, the echo of the startup writes hands a solo tab
   over to steady state, and the echo of its submission dispatches it and
   blocks a second submission.
   */
  lemma SoloTabDispatchesOwnSubmission(config: Config, syncNonce: Uint32, langNonce: Uint32, now: int, later: int)
    requires config.role == Solo
    requires |config.catalog.langs| > 0
    requires forall l :: l in config.catalog.langs ==> l != ""
    ensures var s0 := Start(config, syncNonce, langNonce);
            var e0 := Observe(s0.doc, s0.client, MapEvent({CodeKey, LangKey}, true), 0);
            var s1 := SubmitCode(e0.doc, e0.client, now);
            var e1 := Observe(s1.doc, s1.client, MapEvent({PendingKey}, true), 0);
            && e0.client.phase == Steady
            && s1.doc.states.pending.Some?
            && e1.client.current == s1.doc.states.pending
            && Dispatched(e1.effects) == {s1.doc.states.pending.value}
            && SubmitCode(e1.doc, e1.client, later) == Step(e1.doc, e1.client, [])
  {
  }
}

=== FILE: observers.dfy ===
/**
 The observers of the states map: the one-shot initialisation handlers
 (`initCodeIfNotExist` in a matched room, `observeDocLoad` alone), the
 steady-state `stateEventObserver`, and the mount-time startup that attaches
 them; also the chat and submission-log observers that refresh the local views.
 */
module Observers {
  import opened Wrappers
  import opened Session
  import opened Editor
  import Text

  /**
   `initStates`: with a buffer, draws a language from the table, writes it to
   the language key and the local cache, and inserts its template at position 0.
   */
  function InitStates(d: Doc, c: Client, nonce: Uint32): (r: Step)
    ensures r.effects == []
    ensures c.code.None? ==> r.doc == d && r.client == c
    ensures c.code.Some? ==>
              && r.client == c.(lang := ChooseLang(c.config.catalog, nonce))
              && (|c.config.catalog.langs| > 0 ==> r.client.lang.Some?)
              && r.doc.states == d.states.(lang := r.client.lang)
              && OnlyBufferDiffers(d.(states := r.doc.states), r.doc, c.code.value)
              && (HasBuffer(d, c.code.value) ==>
                    TextOf(r.doc, c.code.value) == Template(c.config.catalog, r.client.lang) + TextOf(d, c.code.value))
  {
    match c.code
    case None => Step(d, c, [])
    case Some(id) =>
      var l := ChooseLang(c.config.catalog, nonce);
      var written := d.(states := d.states.(lang := l));
      var t := TextOf(written, id);
      var s := Template(c.config.catalog, l);
      var inserted := Text.Insert(t, 0, s);
      assert inserted == s + t by {
        assert inserted == inserted[..|s|] + inserted[|s|..];
      }
      Step(WithText(written, id, inserted), c.(lang := l), [])
  }

  /** `setCodeFromMap`: adopts the buffer the code key refers to, and the language key when it is set. */
  function SetCodeFromMap(d: Doc, c: Client): (r: Client)
    ensures r.code == d.states.code
    ensures Truthy(d.states.lang) ==> r.lang == d.states.lang
    ensures !Truthy(d.states.lang) ==> r.lang == c.lang
    ensures r == c.(code := r.code, lang := r.lang)
  {
    var adopted := c.(code := d.states.code);
    if Truthy(d.states.lang) && d.states.lang != c.lang then adopted.(lang := d.states.lang) else adopted
  }

  /**
   `initCodeIfNotExist`, the matched-room initialisation handler. It ignores
   local transactions. The initiator adopts an existing buffer (warning that
   the account is open elsewhere) or, when the code key is absent, creates the
   one buffer and seeds it; either way it moves to steady state. The
   non-initiator waits while the code key is absent and otherwise adopts.
   */
  function InitCodeIfNotExist(d: Doc, c: Client, e: MapEvent, nonce: Uint32): (r: Step)
    ensures e.local ==> r == Step(d, c, [])
    ensures r.client.config == c.config
    ensures r.client.phase == c.phase || r.client.phase == Steady
    ensures NoCreation(r.effects) ==> r.doc == d
    ensures !e.local && c.config.role == Partner ==>
              && r.doc == d && r.effects == []
              && (d.states.code.None? ==> r.client == c)
              && (d.states.code.Some? ==> r.client == SetCodeFromMap(d, c).(phase := Steady))
    ensures !e.local && c.config.role != Partner && d.states.code.Some? ==>
              && r.doc == d
              && r.client == SetCodeFromMap(d, c).(phase := Steady)
              && r.effects == [Notify(SignedInElsewhere)]
    ensures !e.local && c.config.role != Partner && d.states.code.None? ==>
              var id := |d.texts|;
              && r.effects == [CreateBuffer(id)]
              && r.client.phase == Steady
              && |r.doc.texts| == id + 1 && r.doc.texts[..id] == d.texts
              && r.client.code == Some(id) && r.doc.states.code == Some(id)
              && r.client == c.(phase := Steady, code := Some(id), lang := ChooseLang(c.config.catalog, nonce))
              && TextOf(r.doc, id) == Template(c.config.catalog, r.client.lang)
              && r.doc.states == d.states.(code := Some(id), lang := r.client.lang)
              && (r.client.lang.Some? ==> r.client.lang.value in c.config.catalog.langs)
              && r.doc.chat == d.chat && r.doc.log == d.log
  {
    if e.local then Step(d, c, [])
    else if c.config.role != Partner then
      if d.states.code.Some? then
        Step(d, SetCodeFromMap(d, c).(phase := Steady), [Notify(SignedInElsewhere)])
      else
        var id := |d.texts|;
        var created := d.(texts := d.texts + [""], states := d.states.(code := Some(id)));
        var seeded := InitStates(created, c.(code := Some(id)), nonce);
        assert TextOf(created, id) == "";
        assert ([CreateBuffer(id)] + seeded.effects)[0].CreateBuffer?;
        Step(seeded.doc, seeded.client.(phase := Steady), [CreateBuffer(id)] + seeded.effects)
    else if d.states.code.None? then Step(d, c, [])
    else Step(d, SetCodeFromMap(d, c).(phase := Steady), [])
  }

  /**
   `observeDocLoad`, the solo initialisation handler, corrected so that it
   hands over to steady state on its first event: a remote transaction makes
   the client adopt the buffer the code key refers to, if any; the echo of its
   own startup writes needs no adoption. As written it ignores local
   transactions and so, in a tab with no peer, never hands over.
   */
  function ObserveDocLoad(d: Doc, c: Client, e: MapEvent): (r: Step)
    ensures r.doc == d && r.effects == []
    ensures r.client.phase == Steady
    ensures e.local || d.states.code.None? ==> r.client == c.(phase := Steady)
    ensures !e.local && d.states.code.Some? ==> r.client == SetCodeFromMap(d, c).(phase := Steady)
  {
    if !e.local && d.states.code.Some? then Step(d, SetCodeFromMap(d, c).(phase := Steady), [])
    else Step(d, c.(phase := Steady), [])
  }

  /** The notice raised when a remote transaction replaces the code key. */
  function CodeReplacedNotice(role: Role): Notice {
    if role != Partner then SignedInElsewhere else PartnerEditedElsewhere
  }

  /**
   The pending-slot part of `stateEventObserver`, reading `seen` as the current
   submission: the notices and dispatches raised by a change of the slot to `incoming`.
   */
  function SlotEffects(c: Client, incoming: Option<Submission>, local: bool, seen: Option<Submission>): (r: seq<Effect>)
    ensures Dispatched(r) ==
              if incoming.Some? && seen.None? && Dispatches(c, incoming.value, local)
              then {incoming.value} else {}
    ensures Notify(PartnerAlreadySubmitted) in r <==>
              incoming.Some? && seen.Some? && incoming.value.user != c.config.user.id && c.config.role != Initiator
    ensures incoming.Some? && seen.None? ==> Notify(Announcement(c, incoming.value)) in r
    ensures forall n :: Notify(n) in r ==>
              || (incoming.Some? && seen.None? && n == Announcement(c, incoming.value))
              || n == PartnerAlreadySubmitted
    ensures incoming.None? ==> r == []
    ensures NoCreation(r)
  {
    if incoming.None? then []
    else if seen.None? then
      var r := SubmitToServer(c, incoming.value, local);
      assert Dispatches(c, incoming.value, local) ==> r[|r| - 1] == Dispatch(incoming.value);
      r
    else if incoming.value.user != c.config.user.id && c.config.role != Initiator then
      [Notify(PartnerAlreadySubmitted)]
    else []
  }

  /**
   The body of `stateEventObserver`, reading `seen` as the current submission.
   A pending-slot change always updates the current submission; a non-null
   value with nothing seen is handed to `submitToServer`; a non-null value of a
   partner's, while one is seen and this client is not the initiator, only
   yields a notice. A set language key is adopted. A remote code-key change
   adopts the foreign buffer with a notice. The document is never written.
   */
  function OnStatesEvent(d: Doc, c: Client, e: MapEvent, seen: Option<Submission>): (r: Step)
    ensures r.doc == d
    ensures r.client == c.(current := r.client.current, lang := r.client.lang, code := r.client.code)
    ensures PendingKey in e.keys ==> r.client.current == d.states.pending
    ensures PendingKey !in e.keys ==> r.client.current == c.current
    ensures Truthy(d.states.lang) ==> r.client.lang == d.states.lang
    ensures !Truthy(d.states.lang) ==> r.client.lang == c.lang
    ensures CodeKey in e.keys && !e.local ==>
              r.client.code == d.states.code && Notify(CodeReplacedNotice(c.config.role)) in r.effects
    ensures !(CodeKey in e.keys && !e.local) ==> r.client.code == c.code
    ensures Dispatched(r.effects) ==
              if PendingKey in e.keys && d.states.pending.Some? && seen.None?
                 && Dispatches(c, d.states.pending.value, e.local)
              then {d.states.pending.value} else {}
    ensures Notify(PartnerAlreadySubmitted) in r.effects <==>
              && PendingKey in e.keys && d.states.pending.Some? && seen.Some?
              && d.states.pending.value.user != c.config.user.id && c.config.role != Initiator
    ensures PendingKey in e.keys && d.states.pending.Some? && seen.None? ==>
              Notify(Announcement(c, d.states.pending.value)) in r.effects
    ensures forall n :: Notify(n) in r.effects ==>
              || (PendingKey in e.keys && d.states.pending.Some? && seen.None? && n == Announcement(c, d.states.pending.value))
              || n == PartnerAlreadySubmitted
              || (CodeKey in e.keys && !e.local && n == CodeReplacedNotice(c.config.role))
    ensures PendingKey !in e.keys && !(CodeKey in e.keys && !e.local) ==> r.effects == []
    ensures NoCreation(r.effects)
  {
    var slotEffects := if PendingKey in e.keys then SlotEffects(c, d.states.pending, e.local, seen) else [];
    var current := if PendingKey in e.keys then d.states.pending else c.current;
    var lang := if Truthy(d.states.lang) then d.states.lang else c.lang;
    var remoteCode := CodeKey in e.keys && !e.local;
    var code := if remoteCode then d.states.code else c.code;
    var codeEffects := if remoteCode then [Notify(CodeReplacedNotice(c.config.role))] else [];
    var effs := slotEffects + codeEffects;
    EffectsAppend(slotEffects, codeEffects);
    Step(d, c.(current := current, lang := lang, code := code), effs)
  }

  /** What the effects of `a + b` dispatch, create or announce is what `a` and `b` do. */
  lemma EffectsAppend(a: seq<Effect>, b: seq<Effect>)
    requires forall i :: 0 <= i < |b| ==> b[i].Notify?
    ensures Dispatched(a + b) == Dispatched(a)
    ensures NoCreation(a + b) <==> NoCreation(a)
    ensures forall n :: Notify(n) in a + b <==> Notify(n) in a || Notify(n) in b
  {
    var ab := a + b;
    forall s | s in Dispatched(ab) ensures s in Dispatched(a) {
      var i :| 0 <= i < |ab| && ab[i].Dispatch? && ab[i].submission == s;
      assert i < |a|;
      assert ab[i] == a[i];
    }
    if NoCreation(a) {
      forall i | 0 <= i < |ab| ensures !ab[i].CreateBuffer? {
        if i >= |a| { assert ab[i] == b[i - |a|]; } else { assert ab[i] == a[i]; }
      }
    }
    if NoCreation(ab) {
      forall i | 0 <= i < |a| ensures !a[i].CreateBuffer? {
        assert ab[i] == a[i];
      }
    }
    forall s | s in Dispatched(a) ensures s in Dispatched(ab) {
      var i :| 0 <= i < |a| && a[i].Dispatch? && a[i].submission == s;
      assert ab[i] == a[i];
    }
  }

  /** `stateEventObserver`, reading the client's current submission. */
  function StateEventObserver(d: Doc, c: Client, e: MapEvent): (r: Step)
    ensures r.doc == d && NoCreation(r.effects)
    ensures r.client.config == c.config && r.client.phase == c.phase
    ensures Dispatched(r.effects) ==
              if PendingKey in e.keys && d.states.pending.Some? && c.current.None?
                 && Dispatches(c, d.states.pending.value, e.local)
              then {d.states.pending.value} else {}
    ensures Notify(PartnerAlreadySubmitted) in r.effects <==>
              && PendingKey in e.keys && d.states.pending.Some? && c.current.Some?
              && d.states.pending.value.user != c.config.user.id && c.config.role != Initiator
    ensures PendingKey in e.keys && d.states.pending.Some? && c.current.None? ==>
              Notify(Announcement(c, d.states.pending.value)) in r.effects
    ensures forall n :: Notify(n) in r.effects ==>
              || (PendingKey in e.keys && d.states.pending.Some? && c.current.None? && n == Announcement(c, d.states.pending.value))
              || n == PartnerAlreadySubmitted
              || (CodeKey in e.keys && !e.local && n == CodeReplacedNotice(c.config.role))
    ensures PendingKey !in e.keys && !(CodeKey in e.keys && !e.local) ==> r.effects == []
  {
    OnStatesEvent(d, c, e, c.current)
  }

  /** Delivers a states-map event to whichever observer is attached. */
  function Observe(d: Doc, c: Client, e: MapEvent, nonce: Uint32): (r: Step)
    ensures r.client.config == c.config
    ensures r.client.phase == c.phase || r.client.phase == Steady
    ensures NoCreation(r.effects) || (r.effects == [CreateBuffer(|d.texts|)] && r.client.phase == Steady)
    ensures !(c.phase == AwaitingInit && c.config.role != Partner) ==> NoCreation(r.effects)
  {
    match c.phase
    case Unmounted => Step(d, c, [])
    case AwaitingInit => InitCodeIfNotExist(d, c, e, nonce)
    case AwaitingDocLoad => ObserveDocLoad(d, c, e)
    case Steady => StateEventObserver(d, c, e)
  }

  /**
   The mount effect. In a matched room it attaches the initialisation handler
   and writes the sync marker; alone it attaches `observeDocLoad`, creates the
   buffer in its fresh document and seeds it.
   */
  function Start(config: Config, syncNonce: Uint32, langNonce: Uint32): (r: Step)
    ensures r.client.config == config
    ensures r.client.current.None? && r.client.chat == [] && r.client.past.None? && r.client.history == []
    ensures r.doc.chat == [] && r.doc.log == [] && r.doc.states.pending.None?
    ensures config.role != Solo ==>
              && r.client == Fresh(config).(phase := AwaitingInit)
              && r.doc == EmptyDoc.(states := EmptyDoc.states.(sync := Some(SyncMarker(config.user.id, syncNonce))))
              && r.effects == []
    ensures config.role == Solo ==>
              && r.client.phase == AwaitingDocLoad
              && r.effects == [CreateBuffer(0)]
              && r.client.code == Some(0) && r.doc.states.code == Some(0)
              && r.doc.texts == [Template(config.catalog, r.client.lang)]
              && r.doc.states.lang == r.client.lang
              && (r.client.lang.Some? ==> r.client.lang.value in config.catalog.langs)
              && (|config.catalog.langs| > 0 ==> r.client.lang.Some?)
  {
    if config.role != Solo then
      Step(EmptyDoc.(states := EmptyDoc.states.(sync := Some(SyncMarker(config.user.id, syncNonce)))),
           Fresh(config).(phase := AwaitingInit), [])
    else
      var created := EmptyDoc.(texts := [""], states := EmptyDoc.states.(code := Some(0)));
      var seeded := InitStates(created, Fresh(config).(phase := AwaitingDocLoad, code := Some(0)), langNonce);
      assert TextOf(created, 0) == "";
      assert |seeded.doc.texts| == 1;
      assert HasBuffer(created, 0);
      assert TextOf(seeded.doc, 0) == Template(config.catalog, seeded.client.lang) + "";
      var template := Template(config.catalog, seeded.client.lang);
      assert template + "" == template;
      assert seeded.doc.texts == [template];
      Step(seeded.doc, seeded.client, [CreateBuffer(0)] + seeded.effects)
  }

  /** The chat-log observer: the local chat view becomes the log. */
  function OnChatChange(d: Doc, c: Client): (r: Client)
    ensures r.chat == d.chat && r == c.(chat := r.chat)
  {
    c.(chat := d.chat)
  }

  /**
   The submission-log observer: the history view becomes the fetched past
   submissions followed by the live log (no past counts as none).
   */
  function OnLogChange(d: Doc, c: Client): (r: Client)
    ensures r == c.(history := r.history)
    ensures var past := c.past.GetOr([]);
            |r.history| == |past| + |d.log| && r.history[..|past|] == past && r.history[|past|..] == d.log
  {
    c.(history := c.past.GetOr([]) + d.log)
  }

  /**
   The completion of the one-time history fetch, which happens only when the
   session is about a question: records the fetched submissions and refreshes
   the history view.
   */
  function HistoryLoaded(d: Doc, c: Client, fetched: seq<Submission>): (r: Client)
    ensures c.config.question.None? ==> r == c
    ensures c.config.question.Some? ==>
              && r == c.(past := Some(fetched), history := r.history)
              && |r.history| == |fetched| + |d.log|
              && r.history[..|fetched|] == fetched && r.history[|fetched|..] == d.log
  {
    if c.config.question.None? then c
    else c.(past := Some(fetched), history := fetched + d.log)
  }
}

=== FILE: protocol.dfy ===
/**
 The client as a reactor over everything that can happen to it, and the
 properties of the collaboration protocol across sequences of events and
 across the two replicas of one session.
 */
module Protocol {
  import opened Wrappers
  import opened Session
  import opened Editor
  import opened Observers

  /** Something that happens to one client. */
  datatype Input =
      /** A remote transaction on the states map has been merged: the replica is now `incoming`. */
    | Remote(incoming: Doc, keys: set<Key>, nonce: Uint32)
      /** The change event of this client's own transaction on the states map. */
    | Echo(keys: set<Key>, nonce: Uint32)
    | Submit(now: int)
    | SwitchLang(lang: Lang)
    | Replace(text: string)
    | Clear
    | Say(msg: string)
      /** The delayed resolution of a dispatched submission fires. */
    | Resolved(submission: Submission)
    | ChatChanged
    | LogChanged
      /** The one-time history fetch completes. */
    | Fetched(past: seq<Submission>)

  /** Whether the client may still create the code buffer: the matched-room
      handler is attached and the client is not the matched non-initiator. */
  predicate CanCreate(c: Client) {
    c.phase == AwaitingInit && c.config.role != Partner
  }

  /** Runs the handler `i` triggers. */
  function Handle(d: Doc, c: Client, i: Input): (r: Step)
    ensures r.client.config == c.config
    ensures r.client.phase == c.phase || r.client.phase == Steady
    ensures !CanCreate(c) ==> NoCreation(r.effects)
    ensures NoCreation(r.effects) || (|r.effects| == 1 && r.effects[0].CreateBuffer? && !CanCreate(r.client))
  {
    match i
    case Remote(incoming, keys, nonce) => Observe(incoming, c, MapEvent(keys, false), nonce)
    case Echo(keys, nonce) => Observe(d, c, MapEvent(keys, true), nonce)
    case Submit(now) => SubmitCode(d, c, now)
    case SwitchLang(l) => ChangeLang(d, c, l)
    case Replace(text) => Step(ReplaceCode(d, c, text), c, [])
    case Clear => Step(ClearCode(d, c), c, [])
    case Say(msg) => SendToChat(d, c, msg)
    case Resolved(s) => Resolve(d, c, s)
    case ChatChanged => Step(d, OnChatChange(d, c), [])
    case LogChanged => Step(d, OnLogChange(d, c), [])
    case Fetched(past) => Step(d, HistoryLoaded(d, c, past), [])
  }

  /** Runs the inputs in order, collecting their effects. */
  function Replay(d: Doc, c: Client, ins: seq<Input>): (r: Step)
    ensures r.client.config == c.config
    ensures c.phase == Steady ==> r.client.phase == Steady
    decreases |ins|
  {
    if |ins| == 0 then Step(d, c, [])
    else
      var first := Handle(d, c, ins[0]);
      var rest := Replay(first.doc, first.client, ins[1..]);
      Step(rest.doc, rest.client, first.effects + rest.effects)
  }

  /**
   Single creator per client: over any sequence of inputs a client creates the
   code buffer at most once, and only while the matched-room handler is
   attached and it is not the non-initiator.
   */
  lemma {:induction false} ReplayCreatesAtMostOnce(d: Doc, c: Client, ins: seq<Input>)
    ensures Creations(Replay(d, c, ins).effects) <= (if CanCreate(c) then 1 else 0)
    decreases |ins|
  {
    if |ins| > 0 {
      var first := Handle(d, c, ins[0]);
      var rest := Replay(first.doc, first.client, ins[1..]);
      ReplayCreatesAtMostOnce(first.doc, first.client, ins[1..]);
      CreationsAppend(first.effects, rest.effects);
      NoCreationCountsZero(first.effects);
      if !NoCreation(first.effects) {
        assert Creations(first.effects) == 1 by {
          assert first.effects[1..] == [];
        }
      }
    }
  }

  /**
   Single creator per session: from startup on, a client creates at most one
   buffer, and the matched non-initiator none.
   */
  lemma SessionCreatesAtMostOnce(config: Config, syncNonce: Uint32, langNonce: Uint32, ins: seq<Input>)
    ensures var s := Start(config, syncNonce, langNonce);
            var r := Replay(s.doc, s.client, ins);
            && Creations(s.effects + r.effects) <= 1
            && (config.role == Partner ==> Creations(s.effects + r.effects) == 0)
  {
    var s := Start(config, syncNonce, langNonce);
    var r := Replay(s.doc, s.client, ins);
    ReplayCreatesAtMostOnce(s.doc, s.client, ins);
    CreationsAppend(s.effects, r.effects);
    NoCreationCountsZero(s.effects);
    if config.role == Solo {
      assert Creations(s.effects) == 1 by {
        assert s.effects[1..] == [];
      }
    }
  }

  /**
   The non-initiator never creates a buffer: as long as no merged document
   carries a code reference, it stays in the waiting phase and its replica
   has no code reference either.
   */
  lemma {:induction false} PartnerWaitsForCode(d: Doc, c: Client, ins: seq<Input>)
    requires c.config.role == Partner && c.phase == AwaitingInit && d.states.code.None?
    requires forall i :: 0 <= i < |ins| && ins[i].Remote? ==> ins[i].incoming.states.code.None?
    ensures var r := Replay(d, c, ins);
            && r.client.phase == AwaitingInit && r.doc.states.code.None? && NoCreation(r.effects)
    decreases |ins|
  {
    if |ins| > 0 {
      var first := Handle(d, c, ins[0]);
      assert first.client.phase == AwaitingInit && first.doc.states.code.None? && first.effects == [] by {
        match ins[0]
        case Remote(incoming, keys, nonce) =>
        case Echo(keys, nonce) =>
        case Submit(now) =>
        case SwitchLang(l) =>
        case Replace(text) =>
        case Clear =>
        case Say(msg) =>
        case Resolved(s) =>
        case ChatChanged =>
        case LogChanged =>
        case Fetched(past) =>
      }
      assert forall i :: 0 <= i < |ins[1..]| && ins[1..][i].Remote? ==> ins[1..][i].incoming.states.code.None? by {
        forall i | 0 <= i < |ins[1..]| ensures ins[1..][i] == ins[i + 1] { }
      }
      PartnerWaitsForCode(first.doc, first.client, ins[1..]);
      var rest := Replay(first.doc, first.client, ins[1..]);
      assert first.effects + rest.effects == rest.effects;
    }
  }

  /**
   The matched-room handshake, with every transaction delivered on its own.
   The non-initiator, seeing only the initiator's sync marker, keeps waiting.
   The initiator, seeing the non-initiator's marker, creates and seeds the one
   buffer. Its writes then reach the non-initiator one at a time: the code key
   (empty buffer, no language yet), which the non-initiator adopts and goes to
   steady state with no language; then the language key, which it adopts;
   then the template text, after which its replica is the initiator's.
   */
  lemma Handshake(ua: User, ub: User, q: Option<string>, cat: Catalog,
                  na: Uint32, nb: Uint32, nl: Uint32)
    ensures
      var a0 := Start(Config(ua, q, Initiator, cat), na, 0);
      var b0 := Start(Config(ub, q, Partner, cat), nb, 0);
      var bw := Observe(a0.doc, b0.client, MapEvent({SyncKey}, false), 0);
      var atA := a0.doc.(states := a0.doc.states.(sync := b0.doc.states.sync));
      var a1 := Observe(atA, a0.client, MapEvent({SyncKey}, false), nl);
      var withCode := atA.(texts := atA.texts + [""], states := atA.states.(code := Some(0)));
      var withLang := withCode.(states := withCode.states.(lang := a1.client.lang));
      var b1 := Observe(withCode, bw.client, MapEvent({CodeKey}, false), 0);
      var b2 := Observe(withLang, b1.client, MapEvent({LangKey}, false), 0);
      && a0.effects == [] && b0.effects == [] && bw.effects == [] && b1.effects == [] && b2.effects == []
      && bw.client == b0.client
      && a1.effects == [CreateBuffer(0)] && a1.client.phase == Steady && a1.client.code == Some(0)
      && b1.client.phase == Steady && b1.client.code == Some(0) && b1.client.lang.None?
      && TextOf(withCode, 0) == ""
      && b2.client.phase == Steady && b2.client.code == Some(0)
      && (Truthy(a1.client.lang) ==> b2.client.lang == a1.client.lang)
      && a1.doc == withLang.(texts := [Template(cat, a1.client.lang)])
  {
  }

  /** Two clients are replicas of one session: a matched pair, or two tabs of one account alone. */
  predicate OneSession(a: Client, b: Client) {
    || (a.config.role == Initiator && b.config.role == Partner)
    || (a.config.role == Partner && b.config.role == Initiator)
    || (a.config.role == Solo && b.config.role == Solo && a.config.user.id == b.config.user.id)
  }

  /**
   At most one dispatcher: when a submission reaches both replicas of a
   session, and its transaction is local to at most one of them, at most one
   dispatches it (alone, every submission is the account's own).
   */
  lemma AtMostOneDispatcher(a: Client, b: Client, s: Submission, localA: bool, localB: bool)
    requires OneSession(a, b)
    requires a.config.role == Solo ==> s.user == a.config.user.id
    requires !(localA && localB)
    ensures !(Dispatch(s) in SubmitToServer(a, s, localA) && Dispatch(s) in SubmitToServer(b, s, localB))
  {
  }

  /**
   The race left open: the same initiator account open twice in a matched
   room dispatches the partner's submission from both tabs, each of which
   receives it as a remote transaction.
   */
  lemma TwoInitiatorTabsBothDispatch(a1: Client, a2: Client, s: Submission)
    requires a1.config == a2.config
    requires a1.config.role == Initiator && s.user != a1.config.user.id
    ensures Dispatch(s) in SubmitToServer(a1, s, false)
    ensures Dispatch(s) in SubmitToServer(a2, s, false)
  {
  }

  /**
   A language switch reaches the other replica as three transactions: the
   language key, the deletion and the insertion. On the language-key event
   the observer adopts the language while the shared buffer still holds the
   old text, and writes nothing itself; once the deletion and insertion have
   arrived, the replica is the writer's, whose buffer holds the template.
   */
  lemma LanguageSwitchPropagates(d: Doc, a: Client, b: Client, l: Lang, nonce: Uint32)
    requires Bound(a) && a.lang != Some(l) && l != ""
    requires a.code.Some? && HasBuffer(d, a.code.value) && b.code == a.code
    requires b.phase == Steady
    ensures var ra := ChangeLang(d, a, l);
            var keyWritten := d.(states := d.states.(lang := Some(l)));
            var rb := Observe(keyWritten, b, MapEvent({LangKey}, false), nonce);
            && ra.client.lang == Some(l) && ra.doc.states == keyWritten.states
            && rb.client.lang == Some(l) && rb.client.code == b.code
            && rb.doc == keyWritten && rb.effects == []
            && TextOf(keyWritten, b.code.value) == TextOf(d, b.code.value)
            && ra.doc == keyWritten.(texts := ra.doc.texts)
            && TextOf(ra.doc, b.code.value) == Template(a.config.catalog, Some(l))
  {
  }

  /**
   Submission, first half: a submission that passes the guard reaches the
   submitter's own observer as its current submission, is dispatched unless
   the submitter is the matched non-initiator, and blocks a second submission.
   */
  lemma SubmitThenEcho(d: Doc, c: Client, now: int, later: int, nonce: Uint32)
    requires c.phase == Steady && CanSubmit(c)
    ensures var s := SubmitCode(d, c, now);
            var o := Observe(s.doc, s.client, MapEvent({PendingKey}, true), nonce);
            && s.doc.states.pending.Some?
            && o.client.current == s.doc.states.pending
            && Dispatched(o.effects) == (if c.config.role != Partner then {s.doc.states.pending.value} else {})
            && SubmitCode(o.doc, o.client, later) == Step(o.doc, o.client, [])
  {
  }

  /**
   Submission, second half: resolution empties the pending slot and the
   current submission, dispatches nothing more, and the refreshed history
   ends with the resolved record; a new submission is allowed again.
   */
  lemma ResolveThenEcho(d: Doc, c: Client, s: Submission, nonce: Uint32)
    requires c.phase == Steady
    ensures var r := Resolve(d, c, s);
            var o := Observe(r.doc, r.client, MapEvent({PendingKey}, true), nonce);
            var h := OnLogChange(o.doc, o.client);
            && o.client.current.None? && o.doc.states.pending.None?
            && Dispatched(o.effects) == {}
            && h.history == c.past.GetOr([]) + d.log + [s.(result := WrongAnswer)]
            && (CanSubmit(h) <==> Truthy(h.lang) && h.code.Some?)
  {
  }
}

=== FILE: session.dfy ===
/**
 The data of one collaboration session as one client sees it: the replicated
 document (keyed states map, text buffers, chat log, submission log) and the
 client's local cache, plus the effects a handler hands back to its host.
 */
module Session {
  import opened Wrappers

  /** A value of `random.uint32()`. */
  type Uint32 = n: nat | n < 0x1_0000_0000

  /** A language name, a key of the template table. */
  type Lang = string

  /** Identifies one shared text buffer (`Y.Text`) inside a document. */
  type BufId = nat

  /** The language template table: its key order (`langList`) and each entry's default text. */
  datatype Catalog = Catalog(langs: seq<Lang>, defaults: map<Lang, string>)

  /** The template for a language, or `""` when there is none. */
  function Template(cat: Catalog, l: Option<Lang>): string {
    if l.Some? && l.value in cat.defaults then cat.defaults[l.value] else ""
  }

  /** The language a random draw picks; `None` when the table is empty (the draw indexes with NaN). */
  function ChooseLang(cat: Catalog, nonce: Uint32): (l: Option<Lang>)
    ensures |cat.langs| > 0 <==> l.Some?
    ensures l.Some? ==> l.value in cat.langs
  {
    if |cat.langs| == 0 then None else Some(cat.langs[nonce % |cat.langs|])
  }

  /** Every language of the table is drawn by some value of the draw. */
  lemma ChooseLangReachesEveryLang(cat: Catalog, i: nat)
    requires i < |cat.langs| < 0x1_0000_0000
    ensures ChooseLang(cat, i) == Some(cat.langs[i])
  {
    SmallMod(i, |cat.langs|);
  }

  lemma SmallMod(i: int, n: int)
    requires 0 <= i < n
    ensures i % n == i
  {
  }

  /** JavaScript truthiness of an optional language. */
  predicate Truthy(l: Option<Lang>) {
    l.Some? && l.value != ""
  }

  /** The possible results of an evaluation. */
  datatype Verdict =
    | Accepted | TimeLimitExceeded | MemoryLimitExceeded | WrongAnswer
    | CompileError | RuntimeError | Unknown

  /** One submission, staged or resolved. */
  datatype Submission = Submission(
    time: int, user: string, questionId: string, code: string, lang: Lang, result: Verdict)

  datatype ChatRecord = ChatRecord(nickname: string, msg: string)

  /** The value a client writes to the sync key to force a change event on every replica. */
  datatype SyncMarker = SyncMarker(user: string, nonce: Uint32)

  /** The keyed states map: pending submission, active language, code buffer reference, sync marker. */
  datatype States = States(
    pending: Option<Submission>, lang: Option<Lang>, code: Option<BufId>, sync: Option<SyncMarker>)

  /** The keys of the states map, as reported in a change event. */
  datatype Key = PendingKey | LangKey | CodeKey | SyncKey

  /** One replica of the shared document. */
  datatype Doc = Doc(states: States, texts: seq<string>, chat: seq<ChatRecord>, log: seq<Submission>)

  const EmptyDoc: Doc := Doc(States(None, None, None, None), [], [], [])

  /** Whether `id` names a buffer of `d`. */
  predicate HasBuffer(d: Doc, id: BufId) {
    id < |d.texts|
  }

  /** The contents of buffer `id`, empty when there is no such buffer. */
  function TextOf(d: Doc, id: BufId): string {
    if HasBuffer(d, id) then d.texts[id] else ""
  }

  /** `d` with buffer `id` set to `t`; unchanged when there is no such buffer. */
  function WithText(d: Doc, id: BufId, t: string): (r: Doc)
    ensures r.states == d.states && r.chat == d.chat && r.log == d.log
    ensures |r.texts| == |d.texts|
    ensures HasBuffer(d, id) ==> TextOf(r, id) == t
    ensures forall j :: 0 <= j < |d.texts| && j != id ==> r.texts[j] == d.texts[j]
  {
    if HasBuffer(d, id) then d.(texts := d.texts[id := t]) else d
  }

  /** Of two documents, only buffer `id` may differ. */
  predicate OnlyBufferDiffers(d: Doc, d': Doc, id: BufId) {
    && d'.states == d.states && d'.chat == d.chat && d'.log == d.log
    && |d'.texts| == |d.texts|
    && forall j :: 0 <= j < |d.texts| && j != id ==> d'.texts[j] == d.texts[j]
  }

  datatype User = User(id: string, username: string)

  /** `matchedRoom` absent, present with `init`, present without `init`. */
  datatype Role = Solo | Initiator | Partner

  /** What the client is given at construction and never changes. */
  datatype Config = Config(user: User, question: Option<string>, role: Role, catalog: Catalog)

  /** Which states-map observer is attached. */
  datatype Phase = Unmounted | AwaitingInit | AwaitingDocLoad | Steady

  /** The client-local cache. */
  datatype Client = Client(
    config: Config,
    phase: Phase,
    lang: Option<Lang>,
    code: Option<BufId>,
    current: Option<Submission>,
    chat: seq<ChatRecord>,
    past: Option<seq<Submission>>,
    history: seq<Submission>)

  /** A client before the mount effect has run. */
  function Fresh(config: Config): Client {
    Client(config, Unmounted, None, None, None, [], None, [])
  }

  /** The document handles (`_states`, `_chat`) are bound once the mount effect ran. */
  predicate Bound(c: Client) {
    c.phase != Unmounted
  }

  /** A change event on the states map, with the transaction's origin. */
  datatype MapEvent = MapEvent(keys: set<Key>, local: bool)

  /** The user-facing notices (toasts) a handler raises. */
  datatype Notice =
    | YouSubmitted | PartnerSubmitted | PartnerAlreadySubmitted
    | SignedInElsewhere | PartnerEditedElsewhere

  /** What a handler asks its host to do besides updating state. */
  datatype Effect =
    | Notify(notice: Notice)
    | Dispatch(submission: Submission)
    | CreateBuffer(id: BufId)

  /** The outcome of one handler. */
  datatype Step = Step(doc: Doc, client: Client, effects: seq<Effect>)

  /** No effect in `effs` creates a buffer. */
  predicate NoCreation(effs: seq<Effect>) {
    forall i :: 0 <= i < |effs| ==> !effs[i].CreateBuffer?
  }

  /** The submissions that `effs` dispatches for evaluation. */
  function Dispatched(effs: seq<Effect>): set<Submission> {
    set i | 0 <= i < |effs| && effs[i].Dispatch? :: effs[i].submission
  }

  /** The number of buffer creations among `effs`. */
  function Creations(effs: seq<Effect>): nat {
    if |effs| == 0 then 0
    else (if effs[0].CreateBuffer? then 1 else 0) + Creations(effs[1..])
  }

  lemma {:induction false} CreationsAppend(a: seq<Effect>, b: seq<Effect>)
    ensures Creations(a + b) == Creations(a) + Creations(b)
  {
    if |a| == 0 {
      assert a + b == b;
    } else {
      assert (a + b)[1..] == a[1..] + b;
      CreationsAppend(a[1..], b);
    }
  }

  lemma {:induction false} NoCreationCountsZero(effs: seq<Effect>)
    ensures NoCreation(effs) <==> Creations(effs) == 0
  {
    if |effs| > 0 {
      NoCreationCountsZero(effs[1..]);
      if NoCreation(effs[1..]) && !effs[0].CreateBuffer? {
        forall i | 0 <= i < |effs| ensures !effs[i].CreateBuffer? {
          if i > 0 { assert effs[i] == effs[1..][i - 1]; }
        }
      }
      if NoCreation(effs) {
        forall i | 0 <= i < |effs[1..]| ensures !effs[1..][i].CreateBuffer? {
          assert effs[1..][i] == effs[i + 1];
        }
      }
    }
  }
}

=== FILE: text.dfy ===
/** The two positional edits the editor performs on a shared text buffer (`Y.Text`). */
module Text {

  /** `insert(pos, s)`: splices `s` into `t` at `pos`. */
  function Insert(t: string, pos: nat, s: string): (r: string)
    requires pos <= |t|
    ensures |r| == |t| + |s|
    ensures r[..pos] == t[..pos]
    ensures r[pos..pos + |s|] == s
    ensures r[pos + |s|..] == t[pos..]
  {
    t[..pos] + s + t[pos..]
  }

  /** `delete(pos, len)`: removes the `len` characters that start at `pos`. */
  function Delete(t: string, pos: nat, len: nat): (r: string)
    requires pos + len <= |t|
    ensures |r| == |t| - len
    ensures r[..pos] == t[..pos]
    ensures r[pos..] == t[pos + len..]
  {
    t[..pos] + t[pos + len..]
  }

  /** Deleting what was just inserted restores the buffer. */
  lemma DeleteUndoesInsert(t: string, pos: nat, s: string)
    requires pos <= |t|
    ensures Delete(Insert(t, pos, s), pos, |s|) == t
  {
  }

  /** Deleting the whole buffer and inserting `s` at the front leaves exactly `s`. */
  lemma ClearThenInsert(t: string, s: string)
    ensures Insert(Delete(t, 0, |t|), 0, s) == s
  {
  }
}

=== FILE: wrappers.dfy ===
/** Optional values and results, standing in for JavaScript's `undefined`/`null` and thrown errors. */
module Wrappers {

  /** A value that may be absent (`undefined` or `null` in the source). */
  datatype Option<+T> = None | Some(value: T) {

    /** The value, or `default` when absent (the `??` operator). */
    function GetOr(default: T): T {
      match this
      case Some(v) => v
      case None => default
    }
  }

  /** The outcome of a handler that may throw. */
  datatype Result<+T, +E> = Ok(value: T) | Err(error: E)
}
